=== FILE: README.md ===
# Civilization of Sands — the turn and economy rules in Dafny

Civilization of Sands is a Monopoly-style board game on a loop of twenty
desert tiles. Two players, each with one of four roles (Builder, Explorer,
Merchant, Politician), roll a die, move around the loop, buy and upgrade
cities, pay rent and tax, collect rewards at EVENT and OASIS tiles, sit out
turns in jail, consult an oracle, and race to 2500 gold.

In the original program these rules are closures over React state in
`App.tsx`. This project lifts them into pure state transitions over an
immutable `Game(board, players, currentIdx, screen)` record and proves what
they promise:

- `types.dfy` (`Types`): the datatypes of `types.ts` plus JavaScript's
  `x || d` on optional numbers (`OrDefault`) and truncating `%` (`JsRem`).
- `constants.dfy` (`Constants`): board size, winning threshold, starting
  resources, the role table and the twenty-tile starting board, with lemmas
  about their shape.
- `updates.dfy` (`Updates`): the record updates the handlers are built from,
  chiefly the clamped resource update `modResource` and the oracle's delta.
- `validity.dfy` (`Validity`): the invariant a game keeps (tile ids are
  indices, player ids are indices, resources are non-negative, levels lie in
  1..3, positions lie on the board, and every player's property list agrees
  with the owners recorded on the tiles), with lemmas that updates keep it.
- `rules.dfy` (`Rules`): `startGame`, the roll gate with its jail skip,
  `movePlayer`, the tile dispatch of `handleTileEvent`, `buyProperty`,
  `upgradeProperty`, the oracle's "Accept Fate" and `endTurn`.
- `properties.dfy` (`Properties`): per-tile and per-decision properties,
  the victory and bankruptcy checks, and that every game reachable from a
  fresh start keeps the invariant.
- `prototype.dfy` (`Prototype`): the movement step of the abandoned 3D
  prototype (`core/gameState.js`).

A turn is explicit. `RollDice` either finishes the turn (`Done`) or leaves a
prompt open (`Awaiting` with a `BuyOffer`, `UpgradeOffer` or `OracleOffer`),
and `Resolve` takes the player's answer. The random values are parameters:

- the die, 1..6;
- the base draw `floor(random * 50)`, 0..49;
- the rival's pick among the three other roles, 0..2;
- the oracle's resource delta.

`floor(x * 0.8)` is written `x * 4 / 5` and `floor(g * 1.5)` is written
`g * 3 / 2`. These agree for the non-negative integers involved: the double
nearest 0.8 lies just above 0.8, so the product is never rounded below the
integer it should floor to, and 1.5 is exact.

The model follows App.tsx as written: a Builder discount of 0.8 on buying
and upgrading (App.tsx:177, 206), rent linear in the level (App.tsx:225),
an upgrade cost of `100 * level` (App.tsx:203), and a random water gain at
OASIS that the Explorer bonus also applies to (App.tsx:247-260). Tile 18 is
described as "Lose Water" (constants.ts:64), but the TAX branch charges gold
(App.tsx:234-243), so the model charges gold.

## Model

| member | source | states |
|---|---|---|
| Types.JsRem | App.tsx:144 | JavaScript's remainder agrees with the mathematical one on a non-negative dividend (so a position plus a roll lands in [0, 20)); on a negative dividend it is the dividend plus a multiple of the divisor and lies in (-b, 0] |
| Types.AllKindsListed | types.ts:31-36 | a resource bundle has exactly the four keys gold, water, energy and materials, each listed once |
| Constants.InitialBoardShape | constants.ts:45-66 | the starting board has exactly `BoardSize` (20) tiles, each tile's id is its index, no tile is owned, every city has a positive price and rent and level 1, and non-cities carry none of these |
| Constants.StartTileUnique | constants.ts:46-65 | tile 0 is the one and only START tile |
| Constants.InitialResourcesSafe | constants.ts:4-11 | every starting resource is non-negative and the starting gold (500) is below `WinningGold` (2500), so nobody has won at the start |
| Constants.CharactersCoverRoles | constants.ts:13-42 | the role table has four entries, contains every role, and repeats none |
| Constants.RoleListedOnce | App.tsx:75 | each role occurs exactly once in the role table, so looking the human's role up succeeds |
| Updates.Clamp | App.tsx:52 | `Math.max(0, v)`: the result is non-negative, at least `v`, and is `v` or 0 |
| Updates.MapPlayers | App.tsx:44-46 | `updatePlayer`: when player ids are indices, updating by id is the update of the single entry at that index, so naming a player by id (App.tsx:156, 300) or by turn index (App.tsx:297) reaches the same player |
| Updates.MapTiles | App.tsx:298 | the board update of a decision: on a board whose ids are indices, updating the tile with id `t` rewrites exactly `board[t]`, the tile the dispatch read (App.tsx:165) |
| Updates.ModResource | App.tsx:48-70 | the clamped update: the named resource of the players with id `pid` becomes `max(0, old + amount)`; their other resources and fields, and all other players, are unchanged |
| Updates.Credit | App.tsx:48-70 | the clamped update on a whole game: board, turn and screen are kept, and only the named resource of player `pid` moves, to the clamped sum |
| Updates.ModResourceKeepsNonNegative | App.tsx:52 | whatever the amount, a clamped update never leaves a negative resource |
| Updates.ApplyKinds | App.tsx:272-276 | applying the delta key by key in a list of distinct kinds: each listed key present in the delta gets its clamped sum, every other resource is untouched |
| Updates.ApplyDelta | App.tsx:271-277 | the whole oracle delta: each key in the delta gets the clamped sum, each key not in it is unchanged, and other players are untouched |
| Updates.DeltaKeepsNonNegative | App.tsx:273-275 | a resource bundle moved key by key through clamped updates stays non-negative |
| Updates.ApplyDeltaKeepsNonNegative | App.tsx:271-277 | whatever the delta, applying it never leaves a negative resource |
| Validity.PlayersReplacedValid | types.ts:38-61 | replacing players by ones with the same ids and property lists, each on the board with non-negative resources, keeps the game invariant |
| Validity.ResourcesReplacedValid | types.ts:31-47 | changing only players' resources, to non-negative ones, keeps the game invariant |
| Validity.CreditValid | App.tsx:48-70 | a clamped resource update keeps the game invariant |
| Validity.ApplyDeltaValid | App.tsx:271-277 | applying an oracle delta keeps the game invariant |
| Validity.InitialBoardOk | constants.ts:45-66 | the starting board meets the tile invariant for any number of players: ids are indices and cities sit unowned at level 1 |
| Validity.FreshGameValid | App.tsx:107-109 | a game on the starting board whose players own nothing, have ids equal to their indices, and are each on the board with non-negative resources, is valid |
| Rules.Discounted | App.tsx:175-178 | the Builder pays `floor(0.8 x)` (characterised by `5r <= 4x < 5r + 5`); other roles pay `x` |
| Rules.Gain | App.tsx:249-257 | the EVENT / OASIS reward is `draw + 20`, in 20..69, or `floor(1.5 (draw + 20))` for an Explorer, in 30..103 |
| Rules.Remove | App.tsx:92 | the role list filter: a role survives exactly when it was in the list and is not the removed role |
| Rules.RivalPool | App.tsx:92 | the rival's pool has three roles and never the human's |
| Rules.RivalPoolIsFilter | App.tsx:92 | the rival pool is exactly the role table filtered to drop the human's role, and holds every other role |
| Rules.NewPlayer | App.tsx:77-89 | a new player stands on START with the starting resources, owns nothing, is not jailed, meets the player invariant and has not won |
| Rules.StartingPlayers | App.tsx:77-107 | the two players `startGame` creates: ids 0 and 1, the human's role and a different rival role, fresh fields |
| Rules.StartGame | App.tsx:74-112 | a new game is valid and playing, on the starting board, with the human (id 0, chosen role) to move and a rival (id 1) of another role, both fresh at position 0 |
| Rules.MovePlayer | App.tsx:142-162 | the current player moves to `(pos + steps) % 20`; the salary (150 for a Merchant, 100 otherwise) is paid exactly when the new position is below the old, which is exactly when the move wraps; nothing else changes and the invariant is kept |
| Rules.Jailed | App.tsx:284-288 | landing on JAIL sets `inJail` and two jail turns for the current player only |
| Rules.CityEffect | App.tsx:171-232 | a city either opens an offer the player could take (unowned and affordable, or own, below level 3 and affordable) or changes the game validly, keeping board and player count |
| Rules.TileEffect | App.tsx:164-289 | the tile dispatch either opens a legitimate prompt or yields a valid game with the same board, the same number of players, the same turn index and the same screen |
| Rules.TileEffectStanding | App.tsx:164-289 | a tile effect that applies at once moves nobody, transfers no property, changes no role, and jails exactly the current player exactly when the tile is JAIL |
| Rules.HandleTileEvent | App.tsx:164-294 | a prompt stays open exactly for ORACLE, an affordable unowned city, or an affordable own city below level 3; otherwise the players are exactly those of the tile's effect and the turn ends: GAME_OVER with the same player current when that player holds at least 2500 gold, else the next index moves; the game stays valid and the board is never changed by landing |
| Rules.Purchase | App.tsx:296-300 | buying deducts exactly the cost, makes the current player the owner at level 1 while keeping the tile's kind, price and rent, appends the tile to the player's properties, and changes no other tile or player |
| Rules.PurchaseKeepsOwnership | App.tsx:298-300 | after a purchase every player's property list still agrees with the tile owners and lists each tile once |
| Rules.Upgrade | App.tsx:306-308 | upgrading deducts exactly the cost and raises the city's level by exactly one, to at most 3, changing nothing else |
| Rules.EndTurn | App.tsx:314-336 | the game is over when the current player has at least 2500 gold; a negative balance gives exactly the reloaded app (home screen, no players); otherwise the turn passes to `(idx + 1) % n`, a different player when there are two or more; the invariant is kept |
| Rules.BuyProperty | App.tsx:296-304 | accepting a buy performs the purchase and ends the turn: the game is over with the buyer current if the buyer holds at least 2500 gold, otherwise the next index moves; the invariant is kept |
| Rules.UpgradeProperty | App.tsx:306-312 | accepting an upgrade performs the upgrade and ends the turn: the game is over with the player current if that player holds at least 2500 gold, otherwise the next index moves; the invariant is kept |
| Rules.AcceptFate | App.tsx:271-279 | "Accept Fate" moves each resource the delta names to its clamped sum, leaves the others and every other player alone, and keeps the invariant |
| Rules.Resolve | App.tsx:181-282 | every answer to an open prompt ends the turn (GAME_OVER at 2500 gold or more, else the next index), keeps the invariant and the number of players; passing or skipping changes neither board nor players |
| Rules.ResolvePerforms | App.tsx:191-215 | the Buy button (App.tsx:191) leaves exactly the players and board of the purchase, and the Upgrade button (App.tsx:215) exactly those of the upgrade |
| Rules.RollDice | App.tsx:114-140 | a roll keeps the invariant, the player count and the board; a finished roll has ended the turn (GAME_OVER at 2500 gold or more, else the next index), and an open prompt is legitimate and leaves the turn index and screen alone |
| Rules.ServeJailTurn | App.tsx:119-124 | a jailed player with turns left spends one; board, turn index, screen and every other player are unchanged |
| Rules.Freed | App.tsx:125-128 | a jailed player with no turns left is released; board, turn index, screen and every other player are unchanged |
| Rules.RollDiceInJail | App.tsx:119-124 | a jailed player with turns left does not move: only `jailTurns` is decremented and the turn passes to the next index |
| Rules.RollDiceMoves | App.tsx:125-161 | a player free to roll ends on `(pos + die) % 20` and is jailed afterwards exactly when that tile is JAIL |
| Rules.RollDiceDispatches | App.tsx:138-161 | after the move the landing tile is dispatched: the roll finishes exactly when the tile's effect applies at once, with that effect's players; otherwise the tile's prompt is open on the moved game |
| Properties.BuyOfferedWhenAffordable | App.tsx:172-199 | an unowned city's cost is its price (floored at 80% for a Builder); the buy is offered exactly when the player's gold covers it, and otherwise nothing changes |
| Properties.UpgradeOfferedWhenAffordable | App.tsx:200-222 | an own city's upgrade costs 100 per level (floored at 80% for a Builder); it is offered exactly when the level is below 3 and the gold covers it, and otherwise nothing changes |
| Rules.ChargeRent | App.tsx:223-231 | rent on someone else's city: the visitor pays rent times level, floored at zero; the owner receives the full rent; nobody else changes and the game stays valid |
| Rules.Transfer | App.tsx:228-229 | paying gold from one player to another: the payer's gold drops by the amount, floored at zero; the payee receives it in full; nobody else changes; the game stays valid |
| Properties.RentChargedToVisitor | App.tsx:223-231 | landing on someone else's city charges `rent * level`: the payer is clamped at zero, the owner receives the full rent, and nobody else changes |
| Properties.TaxCharged | App.tsx:234-244 | TAX takes 50 gold, 25 from a Politician, floored at zero, and changes nothing else |
| Properties.RewardCredited | App.tsx:246-261 | EVENT credits gold and OASIS credits water with the random gain (20..69, times 1.5 floored for an Explorer), and nothing else changes |
| Properties.JailLocksUp | App.tsx:284-288 | JAIL sets `inJail` and two jail turns for the current player and changes nobody else |
| Properties.OracleAppliesDelta | App.tsx:263-282 | ORACLE opens a prompt with the supplied delta, and accepting it moves each named resource to its clamped sum and leaves the rest |
| Properties.StartIsInert | App.tsx:170-294 | START has no effect: the state is unchanged and the turn simply ends |
| Properties.UpgradeRaisesOneLevel | App.tsx:306-312 | an accepted upgrade raises the level by exactly one, to a level in 2..3, and costs exactly the offered price |
| Properties.BuyGrowsBoard | App.tsx:296-304 | a purchase only adds an owner: owned cities keep their owners and no level drops |
| Properties.UpgradeGrowsBoard | App.tsx:306-312 | an upgrade keeps every owner and no level drops |
| Properties.ResolveGrowsBoard | App.tsx:181-312 | whatever the answer to a prompt, owned cities keep their owners and levels never decrease |
| Properties.VictoryExactlyAtThreshold | App.tsx:319-334 | during play the game ends exactly when the current player holds at least 2500 gold; otherwise only the turn index advances, modulo the player count |
| Properties.NoBankruptcy | App.tsx:324-330 | in a valid game the current player's gold is never negative, so the bankruptcy reload never happens and the end of a turn changes no player or tile |
| Properties.PlayTurn | App.tsx:114-336 | one whole turn (roll, then the answer to any prompt) keeps the invariant and the number of players, ends with GAME_OVER for a current player at 2500 gold or more and otherwise hands the turn to the next index, and only grows the board: owned cities keep their owners and no level drops |
| Properties.Play | App.tsx:114-336 | any run of turns keeps the invariant and the number of players, and only grows the board: owned cities keep their owners and no level ever drops |
| Properties.BoardGrowsTransitive | App.tsx:298-308 | board growth composes across successive steps |
| Properties.ReachableGamesValid | App.tsx:74-336 | every game reachable from `startGame` has two players with ids 0 and 1, non-negative resources, pawns on the board, and city levels in 1..3 |
| Prototype.HandleMove | core/gameState.js:25-36 | the current pawn moves to `(pos + steps) % 20`, no other pawn moves, the current player and turn counter stay, TURN_CHANGED carries the same index, and rolling is over |
| Prototype.Run | core/gameState.js:18-22 | a run of DICE_ROLLED events keeps the number of pawns and never changes the current player |
| Prototype.RunStaysOnBoard | core/gameState.js:25-36 | from pawns on the board, any run of die values 1..6 keeps every pawn in [0, 20) |
| Prototype.FromStartStaysOnBoard | core/gameState.js:4-36 | from the initial state (both pawns on tile 0) every pawn stays in [0, 20) and the current player stays 0 |

## Left out

- Rendering, modals, messages, sounds, the mood of a character and its
  two-second reset timer (App.tsx:54-62) have no effect on the rules and are
  not modelled; the `setTimeout` pacing between steps is replaced by
  explicit steps.
- The `isRolling` / `showModal` guard of the roll button (App.tsx:115) is UI
  gating; in the model a roll can only be taken on a `Done` step, and a
  prompt is answered by `Resolve`. The original does not enforce that
  order. `isRolling` drops at App.tsx:137, before the 500 ms timer to the
  tile handler (App.tsx:161), the oracle's await (App.tsx:264) and the
  1500 ms timer to `endTurn` (App.tsx:292) have run. The button is disabled
  only for a non-human index, an open modal or a rolling die
  (App.tsx:480, components/Dice.tsx:56). So the human can roll a second
  time within one turn; the model does not capture those interleavings.
- The rival's automatic roll (the effect at App.tsx:508-513) is not
  modelled, nor its two-second timer and stale-closure reads. Because the
  effect also re-runs when `isRolling` drops back to false (App.tsx:137)
  while the index is still the rival's, the original can schedule a second
  rival roll within one turn, even with a prompt open; the model's turns
  are one roll followed by the answer to any prompt.
- `Math.random` becomes the parameters listed above; the oracle's network
  call (`services/geminiService.ts`) is not part of this model, and its
  result is an arbitrary delta over the four resource kinds.
- Oracle delta keys that are not resource names: the source would write a
  stray field on the resource record; the model's delta is keyed by the four
  kinds only.
- `alert` and `window.location.reload` in the bankruptcy branch are I/O; the
  reload is modelled as the app's initial state `Rules.Reloaded` (home
  screen, no players), and the branch is proved unreachable.
- Handlers are modelled as acting on the latest state; the stale closure
  reads of React state in the original are not modelled.
- Player names, colours, asset ids and tile names and descriptions are
  presentation only.
- The 3D prototype's rendering, physics, dice face detection and event-bus
  wiring (`three/`, `main.js`, `ui/hud.js`), and the presentation components
  in `components/`, are not part of this model; only its movement step is.
- JavaScript numbers are doubles. Board prices, rents, levels, the die,
  the draw and the salaries are small integers, so the model uses unbounded
  integers. The oracle's delta is parsed from untyped JSON and could hold
  fractional or non-numeric values; the model assumes it is integer-valued.
- Rules.Remove: its contract only states membership and that the result is
  no longer than the input; `Rules.RivalPoolIsFilter` pins down the one
  list it is applied to.

=== FILE: constants.dfy ===
/** The static configuration: board size, victory threshold, starting
    resources, the role table and the twenty-tile starting board. */
module Constants {
  import opened Types

  const BoardSize: int := 20
  const WinningGold: int := 2500

  const InitialResources: Resources := Resources(500, 100, 50, 20)

  /** The role table, in declaration order; only the role ids are modelled. */
  const CharactersConfig: seq<Role> := [Builder, Explorer, Merchant, Politician]

  /** An unowned level-1 city. */
  function CityTile(id: int, price: int, rent: int): Tile
  {
    Tile(id, City, Some(price), Some(rent), Some(1), None)
  }

  /** A tile with no price, rent, level or owner. */
  function PlainTile(id: int, kind: TileType): Tile
  {
    Tile(id, kind, None, None, None, None)
  }

  const InitialBoard: seq<Tile> := [
    PlainTile(0, Start),
    CityTile(1, 100, 20),
    PlainTile(2, Event),
    CityTile(3, 120, 25),
    PlainTile(4, Oasis),
    CityTile(5, 150, 30),
    PlainTile(6, Tax),
    CityTile(7, 140, 28),
    PlainTile(8, Oracle),
    CityTile(9, 160, 35),
    PlainTile(10, Jail),
    CityTile(11, 200, 50),
    PlainTile(12, Event),
    CityTile(13, 180, 40),
    PlainTile(14, Oasis),
    CityTile(15, 130, 26),
    PlainTile(16, Oracle),
    CityTile(17, 150, 30),
    PlainTile(18, Tax),
    CityTile(19, 250, 60)
  ]

  /** The board has exactly `BoardSize` tiles, each tile's id is its index,
      nobody owns anything, and only cities carry a price, rent and level,
      all cities starting at level 1. */
  lemma InitialBoardShape()
    ensures |InitialBoard| == BoardSize
    ensures forall i :: 0 <= i < |InitialBoard| ==> InitialBoard[i].id == i
    ensures forall i :: 0 <= i < |InitialBoard| ==> InitialBoard[i].ownerId == None
    ensures forall i :: 0 <= i < |InitialBoard| && InitialBoard[i].kind == City ==>
      && InitialBoard[i].price.Some? && InitialBoard[i].price.value > 0
      && InitialBoard[i].rent.Some? && InitialBoard[i].rent.value > 0
      && InitialBoard[i].level == Some(1)
    ensures forall i :: 0 <= i < |InitialBoard| && InitialBoard[i].kind != City ==>
      InitialBoard[i].price == None && InitialBoard[i].rent == None && InitialBoard[i].level == None
  {
  }

  /** Tile 0 is the one and only START tile. */
  lemma StartTileUnique()
    ensures forall i :: 0 <= i < |InitialBoard| ==> (InitialBoard[i].kind == Start <==> i == 0)
  {
  }

  /** Every starting resource is non-negative and the starting gold is short
      of the victory threshold, so nobody has won before the first turn. */
  lemma InitialResourcesSafe()
    ensures InitialResources.NonNegative()
    ensures InitialResources.gold < WinningGold
  {
  }

  /** The role table lists every role exactly once. */
  lemma CharactersCoverRoles()
    ensures |CharactersConfig| == 4
    ensures forall r: Role :: r in CharactersConfig
    ensures Distinct(CharactersConfig)
  {
    forall r: Role
      ensures r in CharactersConfig
    {
      match r
      case Builder => assert CharactersConfig[0] == r;
      case Explorer => assert CharactersConfig[1] == r;
      case Merchant => assert CharactersConfig[2] == r;
      case Politician => assert CharactersConfig[3] == r;
    }
  }

  /** Each role occurs exactly once in the role table, so looking a role up
      always succeeds and removing it leaves the other three. */
  lemma RoleListedOnce(role: Role)
    ensures multiset(CharactersConfig)[role] == 1
  {
    match role
    case Builder =>
    case Explorer =>
    case Merchant =>
    case Politician =>
  }
}

=== FILE: properties.dfy ===
/** Properties of the turn engine stated against the board and role tables:
    what each tile kind does to the landing player, when a prompt is offered
    and what accepting it changes, when the game ends, and that every game
    reachable from `StartGame` keeps the invariant. */
module Properties {
  import opened Types
  import opened Constants
  import opened Updates
  import opened Validity
  import opened Rules

  // ----- cities -----

  /** An unowned city is offered for sale exactly when the player can pay
      its price (floored at 80% for a Builder); otherwise nothing happens. */
  lemma BuyOfferedWhenAffordable(g: Game, t: int, draw: int, oracle: map<ResourceKind, int>)
    requires Valid(g)
    requires 0 <= t < BoardSize && 0 <= draw < 50
    requires g.board[t].kind == City && g.board[t].ownerId == None
    ensures
      var e := TileEffect(g, t, draw, oracle);
      var price := g.board[t].price.value;
      var cost := BuyCost(g.Current().role, g.board[t]);
      && (g.Current().role == Builder ==> 5 * cost <= 4 * price < 5 * cost + 5)
      && (g.Current().role != Builder ==> cost == price)
      && (e.Offered? <==> cost <= GoldOf(g, g.currentIdx))
      && (e.Offered? ==> e.offer == BuyOffer(t, cost))
      && (e.Applied? ==> e.game == g)
  {
  }

  /** The player's own city is offered for upgrade exactly when it is below
      level 3 and the player can pay 100 per current level (floored at 80%
      for a Builder); otherwise nothing happens. */
  lemma UpgradeOfferedWhenAffordable(g: Game, t: int, draw: int, oracle: map<ResourceKind, int>)
    requires Valid(g)
    requires 0 <= t < BoardSize && 0 <= draw < 50
    requires g.board[t].kind == City && g.board[t].ownerId == Some(g.currentIdx)
    ensures
      var e := TileEffect(g, t, draw, oracle);
      var level := g.board[t].level.value;
      var cost := UpgradeCost(g.Current().role, g.board[t]);
      && (g.Current().role == Builder ==> 5 * cost <= 4 * (100 * level) < 5 * cost + 5)
      && (g.Current().role != Builder ==> cost == 100 * level)
      && (e.Offered? <==> level < 3 && cost <= GoldOf(g, g.currentIdx))
      && (e.Offered? ==> e.offer == UpgradeOffer(t, cost))
      && (e.Applied? ==> e.game == g)
  {
  }

  /** Landing on another player's city charges rent times level: the payer's
      gold drops by it, floored at zero, while the owner receives it in full;
      nobody else is touched. */
  lemma RentChargedToVisitor(g: Game, t: int, draw: int, oracle: map<ResourceKind, int>)
    requires Valid(g)
    requires 0 <= t < BoardSize && 0 <= draw < 50
    requires g.board[t].kind == City && g.board[t].ownerId.Some?
    requires g.board[t].ownerId.value != g.currentIdx
    ensures
      var e := TileEffect(g, t, draw, oracle);
      var owner := g.board[t].ownerId.value;
      var rent := g.board[t].rent.value * g.board[t].level.value;
      && e.Applied?
      && ClampedSum(GoldOf(g, g.currentIdx), -rent, GoldOf(e.game, g.currentIdx))
      && GoldOf(e.game, owner) == GoldOf(g, owner) + rent
      && e.game.players[owner] == g.players[owner].(resources := e.game.players[owner].resources)
      && e.game.Current() == g.Current().(resources := e.game.Current().resources)
      && (forall j :: 0 <= j < |g.players| && j != owner && j != g.currentIdx ==>
            e.game.players[j] == g.players[j])
  {
    var cur := g.currentIdx;
    var owner := g.board[t].ownerId.value;
    var rent := RentDue(g.board[t]);
    assert rent == g.board[t].rent.value * g.board[t].level.value;
    assert g.Current().id == cur;
    assert TileEffect(g, t, draw, oracle) == Applied(ChargeRent(g, t));
  }

  // ----- tax, rewards, jail, oracle, start -----

  /** TAX takes 50 gold (25 from a Politician), floored at zero; nothing
      else changes. */
  lemma TaxCharged(g: Game, t: int, draw: int, oracle: map<ResourceKind, int>)
    requires Valid(g)
    requires 0 <= t < BoardSize && 0 <= draw < 50
    requires g.board[t].kind == Tax
    ensures
      var e := TileEffect(g, t, draw, oracle);
      var tax := if g.Current().role == Politician then 25 else 50;
      && e.Applied?
      && ClampedSum(GoldOf(g, g.currentIdx), -tax, GoldOf(e.game, g.currentIdx))
      && e.game.Current() == g.Current().(resources := g.Current().resources.(gold := GoldOf(e.game, g.currentIdx)))
      && (forall j :: 0 <= j < |g.players| && j != g.currentIdx ==> e.game.players[j] == g.players[j])
  {
  }

  /** EVENT credits gold and OASIS credits water with the random gain:
      `draw + 20` (20..69), or `floor(1.5 * (draw + 20))` for an Explorer;
      nothing else changes. */
  lemma RewardCredited(g: Game, t: int, draw: int, oracle: map<ResourceKind, int>)
    requires Valid(g)
    requires 0 <= t < BoardSize && 0 <= draw < 50
    requires g.board[t].kind == Event || g.board[t].kind == Oasis
    ensures
      var e := TileEffect(g, t, draw, oracle);
      var kind := if g.board[t].kind == Oasis then Water else Gold;
      var before := g.Current().resources.Get(kind);
      var gain := e.game.Current().resources.Get(kind) - before;
      && e.Applied?
      && (g.Current().role != Explorer ==> gain == draw + 20 && 20 <= gain <= 69)
      && (g.Current().role == Explorer ==> 2 * gain <= 3 * (draw + 20) < 2 * gain + 2)
      && e.game.Current() == g.Current().(resources := g.Current().resources.With(kind, before + gain))
      && (forall j :: 0 <= j < |g.players| && j != g.currentIdx ==> e.game.players[j] == g.players[j])
  {
    var kind := if g.board[t].kind == Oasis then Water else Gold;
    var r := TileEffect(g, t, draw, oracle).game.Current().resources;
    var want := g.Current().resources.With(kind, r.Get(kind));
    assert r.Get(Gold) == want.Get(Gold) && r.Get(Water) == want.Get(Water);
    assert r.Get(Energy) == want.Get(Energy) && r.Get(Materials) == want.Get(Materials);
  }

  /** JAIL locks the player up for two turns; nothing else changes. */
  lemma JailLocksUp(g: Game, t: int, draw: int, oracle: map<ResourceKind, int>)
    requires Valid(g)
    requires 0 <= t < BoardSize && 0 <= draw < 50
    requires g.board[t].kind == Jail
    ensures
      var e := TileEffect(g, t, draw, oracle);
      && e.Applied?
      && e.game.Current() == g.Current().(inJail := true, jailTurns := 2)
      && (forall j :: 0 <= j < |g.players| && j != g.currentIdx ==> e.game.players[j] == g.players[j])
  {
  }

  /** ORACLE opens the reading with the generator's delta; accepting it moves
      each resource the delta names by its amount, floored at zero, and the
      turn ends. */
  lemma OracleAppliesDelta(g: Game, t: int, draw: int, oracle: map<ResourceKind, int>)
    requires Valid(g)
    requires 0 <= t < BoardSize && 0 <= draw < 50
    requires g.board[t].kind == Oracle
    ensures TileEffect(g, t, draw, oracle) == Offered(OracleOffer(oracle))
    ensures
      var r := Resolve(g, OracleOffer(oracle), true);
      && (forall k :: k in oracle ==>
            ClampedSum(g.Current().resources.Get(k), oracle[k], r.players[g.currentIdx].resources.Get(k)))
      && (forall k :: k !in oracle ==>
            r.players[g.currentIdx].resources.Get(k) == g.Current().resources.Get(k))
  {
    var f := AcceptFate(g, oracle);
    assert GoldOf(f, g.currentIdx) >= 0;
    var r := Resolve(g, OracleOffer(oracle), true);
    assert r == EndTurn(f);
    assert r.players == f.players;
    assert r.players[g.currentIdx] == f.Current();
  }

  /** START has no effect of its own: the state is unchanged and the turn
      ends. */
  lemma StartIsInert(g: Game, t: int, draw: int, oracle: map<ResourceKind, int>)
    requires Valid(g)
    requires 0 <= t < BoardSize && 0 <= draw < 50
    requires g.board[t].kind == Start
    ensures TileEffect(g, t, draw, oracle) == Applied(g)
    ensures HandleTileEvent(g, t, draw, oracle) == Done(EndTurn(g))
  {
  }

  // ----- decisions -----

  /** An upgrade raises the city exactly one level; since it is only offered
      below level 3, the level never passes 3. */
  lemma UpgradeRaisesOneLevel(g: Game, t: int, cost: int)
    requires Valid(g)
    requires OfferOk(g, UpgradeOffer(t, cost))
    ensures
      var r := UpgradeProperty(g, t, cost);
      && r.board[t].level == Some(g.board[t].level.value + 1)
      && 2 <= r.board[t].level.value <= 3
      && GoldOf(r, g.currentIdx) == GoldOf(g, g.currentIdx) - cost
  {
    var u := Upgrade(g, t, cost);
    assert GoldOf(u, g.currentIdx) >= 0;
  }

  /** Cities only ever gain owners and levels: an owned city keeps its owner
      and its level never drops. */
  predicate BoardGrows(b: seq<Tile>, b': seq<Tile>)
  {
    && |b'| == |b|
    && forall t :: 0 <= t < |b| ==>
         && (b[t].ownerId.Some? ==> b'[t].ownerId == b[t].ownerId)
         && OrDefault(b[t].level, 1) <= OrDefault(b'[t].level, 1)
  }

  /** Growth composes: a board that grew twice grew. */
  lemma BoardGrowsTransitive(b: seq<Tile>, b': seq<Tile>, b'': seq<Tile>)
    requires BoardGrows(b, b') && BoardGrows(b', b'')
    ensures BoardGrows(b, b'')
  {
    forall t | 0 <= t < |b|
      ensures b[t].ownerId.Some? ==> b''[t].ownerId == b[t].ownerId
      ensures OrDefault(b[t].level, 1) <= OrDefault(b''[t].level, 1)
    {
    }
  }

  /** Buying an unowned city only grows the board. */
  lemma BuyGrowsBoard(g: Game, t: int, cost: int)
    requires Valid(g)
    requires OfferOk(g, BuyOffer(t, cost))
    ensures BoardGrows(g.board, BuyProperty(g, t, cost).board)
  {
    var u := Purchase(g, t, cost);
    assert GoldOf(u, g.currentIdx) >= 0;
  }

  /** Upgrading a city only grows the board. */
  lemma UpgradeGrowsBoard(g: Game, t: int, cost: int)
    requires Valid(g)
    requires OfferOk(g, UpgradeOffer(t, cost))
    ensures BoardGrows(g.board, UpgradeProperty(g, t, cost).board)
  {
    var u := Upgrade(g, t, cost);
    assert GoldOf(u, g.currentIdx) >= 0;
  }

  /** Answering a prompt, whatever the answer, only grows the board. */
  lemma ResolveGrowsBoard(g: Game, o: Offer, accept: bool)
    requires Valid(g)
    requires OfferOk(g, o)
    ensures BoardGrows(g.board, Resolve(g, o, accept).board)
  {
    match o
    case BuyOffer(t, c) =>
      if accept { BuyGrowsBoard(g, t, c); }
    case UpgradeOffer(t, c) =>
      if accept { UpgradeGrowsBoard(g, t, c); }
    case OracleOffer(d) =>
  }

  // ----- end of turn -----

  /** During play the game moves to GAME_OVER exactly when the current player
      holds at least `WinningGold` gold; otherwise the turn passes to the
      next index modulo the player count. */
  lemma VictoryExactlyAtThreshold(g: Game)
    requires Valid(g)
    requires g.screen == Playing
    ensures EndTurn(g).screen == GameOver <==> GoldOf(g, g.currentIdx) >= WinningGold
    ensures GoldOf(g, g.currentIdx) < WinningGold ==>
      EndTurn(g) == g.(currentIdx := (g.currentIdx + 1) % |g.players|)
  {
  }

  /** The bankruptcy branch never fires: resources are clamped at zero, so
      the current player's gold is never negative and the end of a turn
      never reloads the app. */
  lemma NoBankruptcy(g: Game)
    requires Valid(g)
    ensures GoldOf(g, g.currentIdx) >= 0
    ensures EndTurn(g) != Reloaded
    ensures EndTurn(g).players == g.players && EndTurn(g).board == g.board
  {
  }

  // ----- whole turns -----

  /** What the outside world supplies for one turn: the die, the random draw
      for EVENT / OASIS, the oracle's delta, and the answer to a prompt. */
  datatype TurnInput = TurnInput(die: int, draw: int, oracle: map<ResourceKind, int>, accept: bool)

  predicate InputOk(i: TurnInput)
  {
    1 <= i.die <= 6 && 0 <= i.draw < 50
  }

  /** One turn: roll, and answer the prompt if one opens. The roll itself
      leaves the board alone, so across the turn owners are kept and levels
      never drop. */
  function PlayTurn(g: Game, i: TurnInput): (r: Game)
    requires Valid(g)
    requires InputOk(i)
    ensures Valid(r)
    ensures |r.players| == |g.players|
    ensures BoardGrows(g.board, r.board)
    ensures Passed(g, r)
  {
    match RollDice(g, i.die, i.draw, i.oracle)
    case Done(g') => g'
    case Awaiting(g', o) =>
      ResolveGrowsBoard(g', o, i.accept);
      var r := Resolve(g', o, i.accept);
      PassedFrom(g, g', r);
      r
  }

  /** A run of turns; it stops early once the game is over. Every game it
      passes through keeps the invariant and the same players, and the board
      only grows: owners are kept and no level drops. */
  function Play(g: Game, inputs: seq<TurnInput>): (r: Game)
    requires Valid(g)
    requires forall k :: 0 <= k < |inputs| ==> InputOk(inputs[k])
    ensures Valid(r)
    ensures |r.players| == |g.players|
    ensures BoardGrows(g.board, r.board)
    decreases |inputs|
  {
    if |inputs| == 0 || g.screen == GameOver then g
    else
      assert InputOk(inputs[0]);
      var next := PlayTurn(g, inputs[0]);
      var r := Play(next, inputs[1..]);
      BoardGrowsTransitive(g.board, next.board, r.board);
      r
  }

  /** Every game reachable from a fresh start keeps the invariant: two
      players whose ids are their indices, no negative resource, every pawn
      on the board, and every city's level in 1..3. */
  lemma ReachableGamesValid(role: Role, rivalPick: int, inputs: seq<TurnInput>)
    requires 0 <= rivalPick < 3
    requires forall k :: 0 <= k < |inputs| ==> InputOk(inputs[k])
    ensures
      var r := Play(StartGame(role, rivalPick), inputs);
      && |r.players| == 2
      && (forall j :: 0 <= j < 2 ==>
            && r.players[j].id == j
            && r.players[j].resources.NonNegative()
            && 0 <= r.players[j].position < BoardSize)
      && (forall t :: 0 <= t < BoardSize ==>
            r.board[t].kind == City ==> 1 <= r.board[t].level.value <= 3)
  {
  }
}

=== FILE: prototype.dfy ===
/** The movement step of the abandoned 3D prototype: a two-pawn state whose
    only transition moves the current pawn by the rolled value on a
    twenty-tile loop and announces the (unchanged) current player. */
module Prototype {
  import opened Types

  /** The prototype's loop length, written as a literal in its move step. */
  const Tiles: int := 20

  datatype Pawn = Pawn(id: int, position: int)

  datatype ProtoState = ProtoState(turn: int, currentPlayer: int, players: seq<Pawn>, isRolling: bool)

  const Initial: ProtoState := ProtoState(1, 0, [Pawn(0, 0), Pawn(1, 0)], false)

  /** The new state and the index carried by the TURN_CHANGED event. */
  datatype Moved = Moved(state: ProtoState, turnChanged: int)

  /** The move step: the current pawn goes to `(position + steps) % 20` with
      JavaScript's remainder; no other pawn moves, the current player is not
      advanced (the event carries the same index), and rolling is over. */
  function HandleMove(s: ProtoState, steps: int): (m: Moved)
    requires 0 <= s.currentPlayer < |s.players|
    ensures |m.state.players| == |s.players|
    ensures m.state.currentPlayer == s.currentPlayer && m.state.turn == s.turn
    ensures m.turnChanged == s.currentPlayer
    ensures !m.state.isRolling
    ensures m.state.players[s.currentPlayer].id == s.players[s.currentPlayer].id
    ensures s.players[s.currentPlayer].position + steps >= 0 ==>
      && m.state.players[s.currentPlayer].position == (s.players[s.currentPlayer].position + steps) % Tiles
      && 0 <= m.state.players[s.currentPlayer].position < Tiles
    ensures forall j :: 0 <= j < |s.players| && j != s.currentPlayer ==> m.state.players[j] == s.players[j]
  {
    var cur := s.currentPlayer;
    var p := s.players[cur];
    var moved := p.(position := JsRem(p.position + steps, Tiles));
    Moved(s.(players := s.players[cur := moved], isRolling := false), cur)
  }

  /** Every pawn stands on one of the twenty tiles. */
  predicate OnBoard(s: ProtoState)
  {
    forall j :: 0 <= j < |s.players| ==> 0 <= s.players[j].position < Tiles
  }

  /** The state after the dice produce `rolls`, one move per roll. */
  function Run(s: ProtoState, rolls: seq<int>): (r: ProtoState)
    requires 0 <= s.currentPlayer < |s.players|
    ensures |r.players| == |s.players| && r.currentPlayer == s.currentPlayer
    decreases |rolls|
  {
    if |rolls| == 0 then s
    else Run(HandleMove(s, rolls[0]).state, rolls[1..])
  }

  /** Die faces are 1..6, so from pawns on the board every run of rolls
      keeps every pawn on the board. */
  lemma {:induction false} RunStaysOnBoard(s: ProtoState, rolls: seq<int>)
    requires 0 <= s.currentPlayer < |s.players|
    requires OnBoard(s)
    requires forall k :: 0 <= k < |rolls| ==> 1 <= rolls[k] <= 6
    ensures OnBoard(Run(s, rolls))
    decreases |rolls|
  {
    if |rolls| > 0 {
      var next := HandleMove(s, rolls[0]).state;
      assert OnBoard(next);
      RunStaysOnBoard(next, rolls[1..]);
    }
  }

  /** In particular, starting from both pawns on tile 0, the position always
      stays in [0, 20) and the current player never changes. */
  lemma FromStartStaysOnBoard(rolls: seq<int>)
    requires forall k :: 0 <= k < |rolls| ==> 1 <= rolls[k] <= 6
    ensures OnBoard(Run(Initial, rolls))
    ensures Run(Initial, rolls).currentPlayer == 0
  {
    RunStaysOnBoard(Initial, rolls);
  }
}

=== FILE: rules.dfy ===
/** The turn and economy rules: game set-up, the roll gate with its jail skip,
    movement around the loop with the start salary, the tile-effect dispatch,
    the buy / upgrade / oracle decisions and the end of the turn.

    Each handler acts on the latest state. The die (1..6), the random base
    gain (0..49), the rival's role pick (0..2), the oracle's delta and the
    human's answer to a prompt are parameters. */
module Rules {
  import opened Types
  import opened Constants
  import opened Updates
  import opened Validity

  // ----- role modifiers and prices -----

  /** Gold for passing START: 150 for a Merchant, 100 for anyone else. */
  function Salary(role: Role): int
  {
    if role == Merchant then 150 else 100
  }

  /** The Builder's 20% discount, `floor(x * 0.8)`; other roles pay `x`. */
  function Discounted(role: Role, x: int): (r: int)
    ensures role == Builder ==> 5 * r <= 4 * x < 5 * r + 5
    ensures role != Builder ==> r == x
  {
    if role == Builder then x * 4 / 5 else x
  }

  /** Price of an unowned city: its price (100 when absent), discounted. */
  function BuyCost(role: Role, t: Tile): int
  {
    Discounted(role, OrDefault(t.price, 100))
  }

  /** Price of the next level: 100 times the current level, discounted. */
  function UpgradeCost(role: Role, t: Tile): int
  {
    Discounted(role, 100 * OrDefault(t.level, 1))
  }

  /** Rent on an owned city: base rent (20 when absent) times the level. */
  function RentDue(t: Tile): int
  {
    OrDefault(t.rent, 20) * OrDefault(t.level, 1)
  }

  /** Tax: 50 gold, halved to 25 for a Politician. */
  function TaxDue(role: Role): int
  {
    if role == Politician then 25 else 50
  }

  /** Reward of an EVENT or OASIS tile for the random draw `draw`
      (`floor(random * 50)`): the base gain `draw + 20`, raised to
      `floor(gain * 1.5)` for an Explorer. */
  function Gain(role: Role, draw: int): (r: int)
    requires 0 <= draw < 50
    ensures role != Explorer ==> r == draw + 20 && 20 <= r <= 69
    ensures role == Explorer ==> 2 * r <= 3 * (draw + 20) < 2 * r + 2 && 30 <= r <= 103
  {
    var gain := draw + 20;
    if role == Explorer then gain * 3 / 2 else gain
  }

  // ----- game set-up -----

  /** `s` with every occurrence of `x` removed, the rest kept in order. */
  function Remove(s: seq<Role>, x: Role): (r: seq<Role>)
    ensures forall y :: y in r <==> y in s && y != x
    ensures |r| <= |s|
  {
    if |s| == 0 then []
    else if s[0] == x then Remove(s[1..], x)
    else [s[0]] + Remove(s[1..], x)
  }

  /** The roles the rival is drawn from: the role table minus the human's
      role, in table order. */
  function RivalPool(role: Role): (pool: seq<Role>)
    ensures |pool| == 3
    ensures role !in pool
  {
    match role
    case Builder => [Explorer, Merchant, Politician]
    case Explorer => [Builder, Merchant, Politician]
    case Merchant => [Builder, Explorer, Politician]
    case Politician => [Builder, Explorer, Merchant]
  }

  /** The rival pool is exactly the role table filtered to drop the human's
      role, so it holds every role but the human's. */
  lemma RivalPoolIsFilter(role: Role)
    ensures RivalPool(role) == Remove(CharactersConfig, role)
    ensures forall r: Role :: r != role ==> r in RivalPool(role)
  {
    match role
    case Builder =>
    case Explorer =>
    case Merchant =>
    case Politician =>
  }

  /** A fresh player at START with the starting resources. */
  function NewPlayer(id: int, role: Role): (p: Player)
    ensures p.id == id && p.role == role && p.position == 0 && p.resources == InitialResources
    ensures p.properties == [] && !p.inJail && p.jailTurns == 0
    ensures PlayerOk(p) && p.resources.gold < WinningGold
  {
    InitialResourcesSafe();
    Player(id, role, 0, InitialResources, [], false, 0)
  }

  /** A new game: the human (id 0) with the chosen role, a rival (id 1) with
      the `rivalPick`-th other role, the starting board, the human to move. */
  function StartGame(role: Role, rivalPick: int): (g: Game)
    requires 0 <= rivalPick < 3
    ensures Valid(g)
    ensures g.screen == Playing && g.currentIdx == 0 && g.board == InitialBoard
    ensures |g.players| == 2
    ensures g.players[0].role == role && g.players[1].role != role
    ensures forall i :: 0 <= i < |g.players| ==>
      && g.players[i].id == i
      && g.players[i].position == 0
      && g.players[i].resources == InitialResources
      && g.players[i].properties == []
      && !g.players[i].inJail && g.players[i].jailTurns == 0
    ensures forall i :: 0 <= i < |g.players| ==> g.players[i].resources.gold < WinningGold
  {
    var players := StartingPlayers(role, rivalPick);
    FreshGameValid(players, Playing);
    Game(InitialBoard, players, 0, Playing)
  }

  /** The human and the rival as `StartGame` creates them. */
  function StartingPlayers(role: Role, rivalPick: int): (ps: seq<Player>)
    requires 0 <= rivalPick < 3
    ensures |ps| == 2
    ensures ps[0].role == role && ps[1].role != role
    ensures forall i :: 0 <= i < |ps| ==>
      && ps[i].id == i
      && ps[i].position == 0
      && ps[i].resources == InitialResources
      && ps[i].properties == []
      && !ps[i].inJail && ps[i].jailTurns == 0
    ensures forall i :: 0 <= i < |ps| ==> PlayerOk(ps[i]) && ps[i].resources.gold < WinningGold
  {
    [NewPlayer(0, role), NewPlayer(1, RivalPool(role)[rivalPick])]
  }

  // ----- movement -----

  /** The current player advances `steps` tiles around the loop. Passing or
      landing on START (the new position is below the old) first pays the
      salary. */
  function MovePlayer(g: Game, steps: int): (r: Game)
    requires Valid(g)
    requires 1 <= steps <= 6
    ensures Valid(r)
    ensures r.board == g.board && r.currentIdx == g.currentIdx && r.screen == g.screen
    ensures |r.players| == |g.players|
    ensures forall j :: 0 <= j < |g.players| && j != g.currentIdx ==> r.players[j] == g.players[j]
    ensures
      var p, q := g.Current(), r.Current();
      && q.position == (p.position + steps) % BoardSize
      && (q.position < p.position <==> p.position + steps >= BoardSize)
      && q.resources.gold - p.resources.gold
           == (if q.position < p.position then (if p.role == Merchant then 150 else 100) else 0)
      && q == p.(position := q.position, resources := p.resources.(gold := q.resources.gold))
  {
    var p := g.Current();
    assert p.id == g.currentIdx;
    var newPos := JsRem(p.position + steps, BoardSize);
    CreditValid(g, p.id, Gold, Salary(p.role));
    var paid := if newPos < p.position then Credit(g, p.id, Gold, Salary(p.role)) else g;
    var moved := MapPlayers(paid.players, p.id, (pl: Player) => pl.(position := newPos));
    PlayersReplacedValid(paid, moved);
    paid.(players := moved)
  }

  // ----- tile effects -----

  /** A prompt the current player must answer before the turn can end. */
  datatype Offer =
    | BuyOffer(tile: int, cost: int)
    | UpgradeOffer(tile: int, cost: int)
    | OracleOffer(delta: map<ResourceKind, int>)

  /** What landing on a tile does: either the state changes and the turn
      ends, or a prompt is opened and nothing changes yet. */
  datatype Effect = Applied(game: Game) | Offered(offer: Offer)

  /** A prompt that the tile dispatch could have opened in `g`: a buy of an
      unowned city the player can afford, an upgrade of the player's own city
      below level 3 that the player can afford, or an oracle reading. */
  predicate OfferOk(g: Game, o: Offer)
    requires Valid(g)
  {
    match o
    case BuyOffer(t, c) =>
      && 0 <= t < BoardSize
      && g.board[t].kind == City && g.board[t].ownerId == None
      && c == BuyCost(g.Current().role, g.board[t])
      && c <= g.Current().resources.gold
    case UpgradeOffer(t, c) =>
      && 0 <= t < BoardSize
      && g.board[t].kind == City && g.board[t].ownerId == Some(g.currentIdx)
      && OrDefault(g.board[t].level, 1) < 3
      && c == UpgradeCost(g.Current().role, g.board[t])
      && c <= g.Current().resources.gold
    case OracleOffer(_) => true
  }

  /** The gold of the player with index `i`. */
  function GoldOf(g: Game, i: int): int
    requires 0 <= i < |g.players|
  {
    g.players[i].resources.gold
  }

  /** The current player is locked up for two turns. */
  function Jailed(g: Game): (r: Game)
    requires Valid(g)
    ensures Valid(r)
    ensures r.board == g.board && r.currentIdx == g.currentIdx && r.screen == g.screen
    ensures |r.players| == |g.players|
    ensures forall j :: 0 <= j < |g.players| && j != g.currentIdx ==> r.players[j] == g.players[j]
    ensures r.Current() == g.Current().(inJail := true, jailTurns := 2)
  {
    var jailed := MapPlayers(g.players, g.Current().id, (pl: Player) => pl.(inJail := true, jailTurns := 2));
    PlayersReplacedValid(g, jailed);
    g.(players := jailed)
  }

  /** Landing on a city: an unowned one is offered for sale when the player
      can pay for it, the player's own one is offered for upgrade when it is
      below level 3 and affordable, and anyone else's charges rent that goes
      to its owner. */
  function CityEffect(g: Game, tileIdx: int): (e: Effect)
    requires Valid(g)
    requires 0 <= tileIdx < BoardSize
    requires g.board[tileIdx].kind == City
    ensures e.Applied? ==> Valid(e.game)
    ensures e.Applied? ==> e.game.board == g.board && |e.game.players| == |g.players|
    ensures e.Applied? ==> e.game.currentIdx == g.currentIdx && e.game.screen == g.screen
    ensures e.Offered? ==> OfferOk(g, e.offer)
  {
    var tile := g.board[tileIdx];
    var p := g.Current();
    if tile.ownerId.None? then
      var cost := BuyCost(p.role, tile);
      if p.resources.gold >= cost then Offered(BuyOffer(tileIdx, cost)) else Applied(g)
    else if tile.ownerId.value == p.id then
      var cost := UpgradeCost(p.role, tile);
      if OrDefault(tile.level, 1) < 3 && p.resources.gold >= cost
      then Offered(UpgradeOffer(tileIdx, cost))
      else Applied(g)
    else
      assert p.id == g.currentIdx;
      Applied(ChargeRent(g, tileIdx))
  }

  /** Rent on someone else's city: the visitor pays `RentDue`, floored at
      zero, the owner is credited the full amount, and nobody else changes. */
  function ChargeRent(g: Game, tileIdx: int): (r: Game)
    requires Valid(g)
    requires 0 <= tileIdx < BoardSize
    requires g.board[tileIdx].ownerId.Some? && g.board[tileIdx].ownerId.value != g.currentIdx
    ensures Valid(r)
    ensures r.board == g.board && r.currentIdx == g.currentIdx && r.screen == g.screen
    ensures |r.players| == |g.players|
    ensures
      var cur, owner, rent := g.currentIdx, g.board[tileIdx].ownerId.value, RentDue(g.board[tileIdx]);
      && ClampedSum(GoldOf(g, cur), -rent, GoldOf(r, cur))
      && GoldOf(r, owner) == GoldOf(g, owner) + rent
      && r.players[owner] == g.players[owner].(resources := r.players[owner].resources)
      && r.players[cur] == g.players[cur].(resources := r.players[cur].resources)
      && (forall j :: 0 <= j < |g.players| && j != cur && j != owner ==> r.players[j] == g.players[j])
  {
    var cur, owner := g.currentIdx, g.board[tileIdx].ownerId.value;
    var rent := RentDue(g.board[tileIdx]);
    Transfer(g, cur, owner, rent);
    Credit(Credit(g, cur, Gold, -rent), owner, Gold, rent)
  }

  /** Moving `amount` gold from `payer` to `payee` through two clamped
      updates: the payer's gold drops by it, floored at zero, the payee
      receives it in full, nobody else is touched, and the game stays valid. */
  lemma Transfer(g: Game, payer: int, payee: int, amount: int)
    requires Valid(g)
    requires 0 <= payer < |g.players| && 0 <= payee < |g.players| && payer != payee
    requires amount >= 0
    ensures
      var r := Credit(Credit(g, payer, Gold, -amount), payee, Gold, amount);
      && Valid(r)
      && ClampedSum(GoldOf(g, payer), -amount, GoldOf(r, payer))
      && GoldOf(r, payee) == GoldOf(g, payee) + amount
      && r.players[payee] == g.players[payee].(resources := r.players[payee].resources)
      && r.players[payer] == g.players[payer].(resources := r.players[payer].resources)
      && (forall j :: 0 <= j < |g.players| && j != payer && j != payee ==> r.players[j] == g.players[j])
  {
    var charged := Credit(g, payer, Gold, -amount);
    CreditValid(g, payer, Gold, -amount);
    CreditValid(charged, payee, Gold, amount);
    assert g.players[payer].id == payer && g.players[payee].id == payee;
    assert charged.players[payee] == g.players[payee];
    assert GoldOf(g, payee) >= 0;
  }

  /** The effect of the current player landing on tile `tileIdx`. */
  function TileEffect(g: Game, tileIdx: int, draw: int, oracle: map<ResourceKind, int>): (e: Effect)
    requires Valid(g)
    requires 0 <= tileIdx < BoardSize
    requires 0 <= draw < 50
    ensures e.Applied? ==> Valid(e.game)
    ensures e.Applied? ==> e.game.board == g.board && |e.game.players| == |g.players|
    ensures e.Applied? ==> e.game.currentIdx == g.currentIdx && e.game.screen == g.screen
    ensures e.Offered? ==> OfferOk(g, e.offer)
  {
    var p := g.Current();
    match g.board[tileIdx].kind
    case City => CityEffect(g, tileIdx)
    case Tax =>
      CreditValid(g, p.id, Gold, -TaxDue(p.role));
      Applied(Credit(g, p.id, Gold, -TaxDue(p.role)))
    case Event =>
      CreditValid(g, p.id, Gold, Gain(p.role, draw));
      Applied(Credit(g, p.id, Gold, Gain(p.role, draw)))
    case Oasis =>
      CreditValid(g, p.id, Water, Gain(p.role, draw));
      Applied(Credit(g, p.id, Water, Gain(p.role, draw)))
    case Oracle => Offered(OracleOffer(oracle))
    case Jail => Applied(Jailed(g))
    case Start => Applied(g)
  }

  /** Landing on a tile that changes the state at once moves nobody, hands
      out no property, changes no role, and jails exactly the current player
      when the tile is JAIL; the board and the turn are left alone. */
  lemma TileEffectStanding(g: Game, tileIdx: int, draw: int, oracle: map<ResourceKind, int>)
    requires Valid(g)
    requires 0 <= tileIdx < BoardSize
    requires 0 <= draw < 50
    requires TileEffect(g, tileIdx, draw, oracle).Applied?
    ensures
      var r := TileEffect(g, tileIdx, draw, oracle).game;
      && r.board == g.board && r.currentIdx == g.currentIdx && r.screen == g.screen
      && |r.players| == |g.players|
      && (forall j :: 0 <= j < |g.players| ==>
            && r.players[j].position == g.players[j].position
            && r.players[j].properties == g.players[j].properties
            && r.players[j].role == g.players[j].role
            && (r.players[j].inJail <==>
                  g.players[j].inJail || (j == g.currentIdx && g.board[tileIdx].kind == Jail)))
  {
    assert g.Current().id == g.currentIdx;
    match g.board[tileIdx].kind
    case City =>
    case Tax =>
    case Event =>
    case Oasis =>
    case Oracle =>
    case Jail =>
    case Start =>
  }

  /** The tile handler with its continuation: a state change is followed by
      the end of the turn, a prompt leaves the turn open. */
  datatype Step = Done(game: Game) | Awaiting(game: Game, offer: Offer)

  function HandleTileEvent(g: Game, tileIdx: int, draw: int, oracle: map<ResourceKind, int>): (s: Step)
    requires Valid(g)
    requires 0 <= tileIdx < BoardSize
    requires 0 <= draw < 50
    ensures s.Done? ==> Valid(s.game)
    ensures |s.game.players| == |g.players| && s.game.board == g.board
    ensures s.Awaiting? ==> s.game == g && OfferOk(g, s.offer)
    ensures s.Done? ==>
      && TileEffect(g, tileIdx, draw, oracle).Applied?
      && s.game.players == TileEffect(g, tileIdx, draw, oracle).game.players
      && Passed(g, s.game)
    ensures s.Awaiting? <==>
      || g.board[tileIdx].kind == Oracle
      || (g.board[tileIdx].kind == City && g.board[tileIdx].ownerId == None
          && BuyCost(g.Current().role, g.board[tileIdx]) <= GoldOf(g, g.currentIdx))
      || (g.board[tileIdx].kind == City && g.board[tileIdx].ownerId == Some(g.currentIdx)
          && OrDefault(g.board[tileIdx].level, 1) < 3
          && UpgradeCost(g.Current().role, g.board[tileIdx]) <= GoldOf(g, g.currentIdx))
  {
    match TileEffect(g, tileIdx, draw, oracle)
    case Applied(g') =>
      TileEffectStanding(g, tileIdx, draw, oracle);
      assert GoldOf(g', g'.currentIdx) >= 0;
      Done(EndTurn(g'))
    case Offered(o) => Awaiting(g, o)
  }

  // ----- decisions -----

  /** Accepting a buy: the player pays the cost, becomes the city's owner at
      level 1, and the city joins the player's property list. */
  function Purchase(g: Game, t: int, cost: int): (r: Game)
    requires Valid(g)
    requires OfferOk(g, BuyOffer(t, cost))
    ensures Valid(r)
    ensures r.currentIdx == g.currentIdx && r.screen == g.screen && |r.players| == |g.players|
    ensures GoldOf(r, g.currentIdx) == GoldOf(g, g.currentIdx) - cost
    ensures r.board[t].ownerId == Some(g.currentIdx) && r.board[t].level == Some(1)
    ensures r.board[t] == g.board[t].(ownerId := Some(g.currentIdx), level := Some(1))
    ensures r.Current().properties == g.Current().properties + [t]
    ensures r.Current() == g.Current().(
      resources := g.Current().resources.(gold := GoldOf(r, g.currentIdx)),
      properties := r.Current().properties)
    ensures forall i :: 0 <= i < |g.board| && i != t ==> r.board[i] == g.board[i]
    ensures forall j :: 0 <= j < |g.players| && j != g.currentIdx ==> r.players[j] == g.players[j]
  {
    var cur := g.currentIdx;
    var paid := ModResource(g.players, cur, Gold, -cost);
    var board := MapTiles(g.board, t, (tl: Tile) => tl.(ownerId := Some(cur), level := Some(1)));
    var players := MapPlayers(paid, g.Current().id, (pl: Player) => pl.(properties := pl.properties + [t]));
    var r := g.(board := board, players := players);
    PurchaseKeepsOwnership(g, t, cost, r);
    r
  }

  /** The ownership half of `Purchase` keeping the invariant: tile `t` was
      unowned, so nobody listed it, and now exactly the buyer does. */
  lemma PurchaseKeepsOwnership(g: Game, t: int, cost: int, r: Game)
    requires Valid(g)
    requires OfferOk(g, BuyOffer(t, cost))
    requires |r.board| == |g.board| && |r.players| == |g.players|
    requires r.board[t].ownerId == Some(g.currentIdx)
    requires forall i :: 0 <= i < |g.board| && i != t ==> r.board[i] == g.board[i]
    requires r.players[g.currentIdx].properties == g.players[g.currentIdx].properties + [t]
    requires forall j :: 0 <= j < |g.players| && j != g.currentIdx ==> r.players[j].properties == g.players[j].properties
    ensures OwnershipAgrees(r.board, r.players)
    ensures forall j :: 0 <= j < |r.players| ==> Distinct(r.players[j].properties)
    ensures forall j, x :: 0 <= j < |r.players| && x in r.players[j].properties ==> 0 <= x < BoardSize
  {
    var cur := g.currentIdx;
    assert t !in g.players[cur].properties;
    forall i, x | 0 <= i < |r.players| && 0 <= x < |r.board|
      ensures x in r.players[i].properties <==> r.board[x].ownerId == Some(i)
    {
      if i == cur {
        assert x in r.players[i].properties <==> x in g.players[i].properties || x == t;
      }
    }
    forall j | 0 <= j < |r.players|
      ensures Distinct(r.players[j].properties)
    {
      if j == cur {
        var s := g.players[cur].properties;
        forall a, b | 0 <= a < b < |s| + 1
          ensures r.players[j].properties[a] != r.players[j].properties[b]
        {
          if b == |s| {
            assert r.players[j].properties[a] == s[a];
          }
        }
      }
    }
  }

  /** Accepting an upgrade: the player pays the cost and the city gains
      exactly one level. */
  function Upgrade(g: Game, t: int, cost: int): (r: Game)
    requires Valid(g)
    requires OfferOk(g, UpgradeOffer(t, cost))
    ensures Valid(r)
    ensures r.currentIdx == g.currentIdx && r.screen == g.screen && |r.players| == |g.players|
    ensures GoldOf(r, g.currentIdx) == GoldOf(g, g.currentIdx) - cost
    ensures r.board[t].level.Some? && g.board[t].level.Some?
    ensures r.board[t].level.value == g.board[t].level.value + 1 <= 3
    ensures r.board[t] == g.board[t].(level := r.board[t].level)
    ensures forall i :: 0 <= i < |g.board| && i != t ==> r.board[i] == g.board[i]
    ensures r.Current() == g.Current().(resources := g.Current().resources.(gold := GoldOf(r, g.currentIdx)))
    ensures forall j :: 0 <= j < |g.players| && j != g.currentIdx ==> r.players[j] == g.players[j]
  {
    var cur := g.currentIdx;
    ModResourceKeepsNonNegative(g.players, cur, Gold, -cost);
    g.(players := ModResource(g.players, cur, Gold, -cost),
       board := MapTiles(g.board, t, (tl: Tile) => tl.(level := Some(OrDefault(tl.level, 1) + 1))))
  }

  /** The page reload of the bankruptcy branch: the app starts over on the
      home screen with no players. */
  const Reloaded: Game := Game(InitialBoard, [], 0, Home)

  /** `r` is what `g` becomes once its turn is over: either the current
      player holds at least `WinningGold` gold and the game is over with
      that player still current, or the player holds less and the next
      index modulo the player count moves, on the same screen. */
  predicate Passed(g: Game, r: Game)
  {
    && 0 <= g.currentIdx < |g.players| == |r.players|
    && (|| (r.screen == GameOver && r.currentIdx == g.currentIdx
            && GoldOf(r, g.currentIdx) >= WinningGold)
        || (r.screen == g.screen && r.currentIdx == (g.currentIdx + 1) % |g.players|
            && GoldOf(r, g.currentIdx) < WinningGold))
  }

  /** `Passed` only looks at the index, the screen and the player count of
      the game before, so a game that agrees with `g` on those has passed
      its turn exactly when `g` has. */
  lemma PassedFrom(g: Game, g': Game, r: Game)
    requires g'.currentIdx == g.currentIdx && g'.screen == g.screen
    requires |g'.players| == |g.players|
    requires Passed(g', r)
    ensures Passed(g, r)
  {
  }

  /** End of turn: the current player wins with at least `WinningGold` gold;
      a negative balance reloads the app; otherwise the next player moves. */
  function EndTurn(g: Game): (r: Game)
    requires 0 <= g.currentIdx < |g.players|
    ensures GoldOf(g, g.currentIdx) >= WinningGold ==> r.screen == GameOver && r.currentIdx == g.currentIdx
    ensures GoldOf(g, g.currentIdx) < WinningGold ==> r.screen == g.screen || r == Reloaded
    ensures GoldOf(g, g.currentIdx) < 0 ==> r == Reloaded
    ensures 0 <= GoldOf(g, g.currentIdx) < WinningGold ==>
      && r.currentIdx == (g.currentIdx + 1) % |g.players|
      && (|g.players| > 1 ==> r.currentIdx != g.currentIdx)
    ensures GoldOf(g, g.currentIdx) >= 0 ==> r.board == g.board && r.players == g.players
    ensures Valid(g) ==> Valid(r) && r.board == g.board && r.players == g.players
    ensures Valid(g) ==> Passed(g, r)
  {
    var gold := g.Current().resources.gold;
    if gold >= WinningGold then
      g.(screen := GameOver)
    else if gold < 0 then
      Reloaded
    else
      g.(currentIdx := JsRem(g.currentIdx + 1, |g.players|))
  }

  /** Accepting a buy ends the turn. */
  function BuyProperty(g: Game, t: int, cost: int): (r: Game)
    requires Valid(g)
    requires OfferOk(g, BuyOffer(t, cost))
    ensures Valid(r)
    ensures r.players == Purchase(g, t, cost).players && r.board == Purchase(g, t, cost).board
    ensures Passed(g, r)
  {
    EndTurn(Purchase(g, t, cost))
  }

  /** Accepting an upgrade ends the turn. */
  function UpgradeProperty(g: Game, t: int, cost: int): (r: Game)
    requires Valid(g)
    requires OfferOk(g, UpgradeOffer(t, cost))
    ensures Valid(r)
    ensures r.players == Upgrade(g, t, cost).players && r.board == Upgrade(g, t, cost).board
    ensures Passed(g, r)
  {
    EndTurn(Upgrade(g, t, cost))
  }

  /** "Accept Fate": the oracle's delta is applied to the current player
      through the clamped update. */
  function AcceptFate(g: Game, delta: map<ResourceKind, int>): (r: Game)
    requires Valid(g)
    ensures Valid(r)
    ensures r.board == g.board && r.currentIdx == g.currentIdx && r.screen == g.screen
    ensures |r.players| == |g.players|
    ensures forall j :: 0 <= j < |g.players| && j != g.currentIdx ==> r.players[j] == g.players[j]
    ensures r.Current() == g.Current().(resources := r.Current().resources)
    ensures forall k :: k in delta ==>
      ClampedSum(g.Current().resources.Get(k), delta[k], r.Current().resources.Get(k))
    ensures forall k :: k !in delta ==> r.Current().resources.Get(k) == g.Current().resources.Get(k)
  {
    var cur := g.currentIdx;
    assert g.Current().id == cur;
    ApplyDeltaValid(g, cur, delta);
    g.(players := ApplyDelta(g.players, cur, delta))
  }

  /** The player's answer to a prompt: buy or pass, upgrade or skip, and the
      oracle's single "Accept Fate" button (where `accept` is ignored). */
  function Resolve(g: Game, o: Offer, accept: bool): (r: Game)
    requires Valid(g)
    requires OfferOk(g, o)
    ensures Valid(r)
    ensures |r.players| == |g.players|
    ensures !accept && !o.OracleOffer? ==> r.players == g.players && r.board == g.board
    ensures Passed(g, r)
  {
    match o
    case BuyOffer(t, c) => if accept then BuyProperty(g, t, c) else EndTurn(g)
    case UpgradeOffer(t, c) => if accept then UpgradeProperty(g, t, c) else EndTurn(g)
    case OracleOffer(delta) =>
      var fated := AcceptFate(g, delta);
      assert GoldOf(fated, fated.currentIdx) >= 0;
      var r := EndTurn(fated);
      PassedFrom(g, fated, r);
      r
  }

  /** Accepting a buy or an upgrade performs it: the players and the board
      after the answer are those of `Purchase` or `Upgrade`. */
  lemma ResolvePerforms(g: Game, o: Offer)
    requires Valid(g)
    requires OfferOk(g, o)
    ensures o.BuyOffer? ==>
      && Resolve(g, o, true).players == Purchase(g, o.tile, o.cost).players
      && Resolve(g, o, true).board == Purchase(g, o.tile, o.cost).board
    ensures o.UpgradeOffer? ==>
      && Resolve(g, o, true).players == Upgrade(g, o.tile, o.cost).players
      && Resolve(g, o, true).board == Upgrade(g, o.tile, o.cost).board
  {
  }

  // ----- the roll -----

  /** The roll button. A jailed player with turns left spends one and the
      turn ends without a move; a jailed player with none left is freed and
      rolls like anyone else: the pawn moves `die` tiles and the landing tile
      is dispatched. */
  function RollDice(g: Game, die: int, draw: int, oracle: map<ResourceKind, int>): (s: Step)
    requires Valid(g)
    requires 1 <= die <= 6
    requires 0 <= draw < 50
    ensures Valid(s.game)
    ensures s.Awaiting? ==> OfferOk(s.game, s.offer)
    ensures |s.game.players| == |g.players|
    ensures s.game.board == g.board
    ensures s.Done? ==> Passed(g, s.game)
    ensures s.Awaiting? ==> s.game.currentIdx == g.currentIdx && s.game.screen == g.screen
  {
    var p := g.Current();
    if p.inJail && p.jailTurns > 0 then
      var waited := ServeJailTurn(g);
      var r := EndTurn(waited);
      PassedFrom(g, waited, r);
      Done(r)
    else
      var moved := MovePlayer(Freed(g), die);
      var s := HandleTileEvent(moved, moved.Current().position, draw, oracle);
      if s.Done? then PassedFrom(g, moved, s.game); s else s
  }

  /** The current player spends one of the remaining jail turns. */
  function ServeJailTurn(g: Game): (r: Game)
    requires Valid(g)
    requires g.Current().inJail && g.Current().jailTurns > 0
    ensures Valid(r)
    ensures r.board == g.board && r.currentIdx == g.currentIdx && r.screen == g.screen
    ensures |r.players| == |g.players|
    ensures forall j :: 0 <= j < |g.players| && j != g.currentIdx ==> r.players[j] == g.players[j]
    ensures r.Current() == g.Current().(jailTurns := g.Current().jailTurns - 1)
  {
    var waited := MapPlayers(g.players, g.Current().id, (pl: Player) => pl.(jailTurns := pl.jailTurns - 1));
    PlayersReplacedValid(g, waited);
    g.(players := waited)
  }

  /** The current player with the jail flag cleared. */
  function Freed(g: Game): (r: Game)
    requires Valid(g)
    ensures Valid(r)
    ensures r.board == g.board && r.currentIdx == g.currentIdx && r.screen == g.screen
    ensures |r.players| == |g.players|
    ensures forall j :: 0 <= j < |g.players| && j != g.currentIdx ==> r.players[j] == g.players[j]
    ensures r.Current() == g.Current().(inJail := false)
  {
    var freed := MapPlayers(g.players, g.Current().id, (pl: Player) => pl.(inJail := false));
    PlayersReplacedValid(g, freed);
    g.(players := freed)
  }

  /** A jailed player with turns left spends one of them and does nothing
      else: no move, no tile effect, and nobody else changes. */
  lemma RollDiceInJail(g: Game, die: int, draw: int, oracle: map<ResourceKind, int>)
    requires Valid(g)
    requires 1 <= die <= 6
    requires 0 <= draw < 50
    requires g.Current().inJail && g.Current().jailTurns > 0
    ensures
      var s := RollDice(g, die, draw, oracle);
      && s.Done?
      && s.game.board == g.board
      && (forall j :: 0 <= j < |g.players| && j != g.currentIdx ==> s.game.players[j] == g.players[j])
      && s.game.players[g.currentIdx] == g.Current().(jailTurns := g.Current().jailTurns - 1)
      && Passed(g, s.game)
  {
    var w := ServeJailTurn(g);
    assert GoldOf(w, w.currentIdx) >= 0;
  }

  /** A player free to move ends the roll on `(position + die) % BoardSize`,
      jailed exactly when that tile is JAIL. */
  lemma RollDiceMoves(g: Game, die: int, draw: int, oracle: map<ResourceKind, int>)
    requires Valid(g)
    requires 1 <= die <= 6
    requires 0 <= draw < 50
    requires !(g.Current().inJail && g.Current().jailTurns > 0)
    ensures
      var s := RollDice(g, die, draw, oracle);
      var landing := (g.Current().position + die) % BoardSize;
      && s.game.players[g.currentIdx].position == landing
      && (s.game.players[g.currentIdx].inJail <==> g.board[landing].kind == Jail)
  {
    var moved := MovePlayer(Freed(g), die);
    var landing := moved.Current().position;
    match TileEffect(moved, landing, draw, oracle)
    case Applied(_) => TileEffectStanding(moved, landing, draw, oracle);
    case Offered(_) =>
  }

  /** A player free to move has the landing tile dispatched: the roll
      finishes exactly when the tile's effect applies at once, and then the
      players are those of that effect; otherwise the tile's prompt is open
      on the moved game. */
  lemma RollDiceDispatches(g: Game, die: int, draw: int, oracle: map<ResourceKind, int>)
    requires Valid(g)
    requires 1 <= die <= 6
    requires 0 <= draw < 50
    requires !(g.Current().inJail && g.Current().jailTurns > 0)
    ensures
      var m := MovePlayer(Freed(g), die);
      var s := RollDice(g, die, draw, oracle);
      var e := TileEffect(m, m.Current().position, draw, oracle);
      && (s.Done? <==> e.Applied?)
      && (s.Done? ==> s.game.players == e.game.players)
      && (s.Awaiting? ==> s.game == m && s.offer == e.offer)
  {
  }
}

=== FILE: types.dfy ===
/** The game's datatypes: tile kinds, roles, screens, the four-field resource
    bundle, players, tiles and the game record the turn engine transforms.
    Presentation-only fields (names, colours, moods, asset ids, descriptions)
    are not part of the model.

    Two JavaScript operators the rules rely on are modelled here once:
    `x || d` on an optional number, and the truncating remainder `%`. */
module Types {

  datatype Option<+T> = None | Some(value: T)

  /** JavaScript `x || d` for an optional number: `undefined` and `0` are both
      falsy, so both fall back to `d`. */
  function OrDefault(x: Option<int>, d: int): int
  {
    match x
    case Some(v) => if v != 0 then v else d
    case None => d
  }

  /** JavaScript `a % b` for a positive divisor: the remainder truncates toward
      zero, so it carries the sign of the dividend. */
  function JsRem(a: int, b: int): (r: int)
    requires b > 0
    ensures a >= 0 ==> r == a % b && 0 <= r < b
    ensures a < 0 ==> -b < r <= 0
    ensures a < 0 ==> r - a == b * ((-a) / b)
  {
    if a >= 0 then a % b else -((-a) % b)
  }

  /** A sequence without repeated elements. */
  predicate Distinct<T(==)>(s: seq<T>)
  {
    forall a, b :: 0 <= a < b < |s| ==> s[a] != s[b]
  }

  /** The seven tile kinds; START carries no effect of its own. */
  datatype TileType = Start | City | Event | Tax | Jail | Oracle | Oasis

  /** The four character roles, each with one economic modifier. */
  datatype Role = Builder | Explorer | Merchant | Politician

  datatype Screen = Home | CharacterSelect | Playing | GameOver

  /** The keys of a resource bundle. */
  datatype ResourceKind = Gold | Water | Energy | Materials

  const AllKinds: seq<ResourceKind> := [Gold, Water, Energy, Materials]

  /** `AllKinds` lists each resource kind exactly once. */
  lemma AllKindsListed()
    ensures forall k: ResourceKind :: k in AllKinds
    ensures Distinct(AllKinds)
  {
    forall k: ResourceKind
      ensures k in AllKinds
    {
      match k
      case Gold => assert AllKinds[0] == k;
      case Water => assert AllKinds[1] == k;
      case Energy => assert AllKinds[2] == k;
      case Materials => assert AllKinds[3] == k;
    }
  }

  datatype Resources = Resources(gold: int, water: int, energy: int, materials: int)
  {
    function Get(k: ResourceKind): int
    {
      match k
      case Gold => gold
      case Water => water
      case Energy => energy
      case Materials => materials
    }

    /** The bundle with the field named by `k` replaced by `v`. */
    function With(k: ResourceKind, v: int): (r: Resources)
      ensures r.Get(k) == v
      ensures forall k' :: k' != k ==> r.Get(k') == Get(k')
    {
      match k
      case Gold => this.(gold := v)
      case Water => this.(water := v)
      case Energy => this.(energy := v)
      case Materials => this.(materials := v)
    }

    predicate NonNegative()
    {
      gold >= 0 && water >= 0 && energy >= 0 && materials >= 0
    }
  }

  /** A player; `properties` lists the ids of the tiles the player owns. */
  datatype Player = Player(
    id: int,
    role: Role,
    position: int,
    resources: Resources,
    properties: seq<int>,
    inJail: bool,
    jailTurns: int)

  /** A board tile; the optional fields are present only on cities, and
      `ownerId` only once a city has been bought. */
  datatype Tile = Tile(
    id: int,
    kind: TileType,
    price: Option<int>,
    rent: Option<int>,
    level: Option<int>,
    ownerId: Option<int>)

  /** The whole game: the board, the players, whose turn it is, and the
      screen shown. */
  datatype Game = Game(board: seq<Tile>, players: seq<Player>, currentIdx: int, screen: Screen)
  {
    /** The player whose turn it is. */
    function Current(): Player
      requires 0 <= currentIdx < |players|
    {
      players[currentIdx]
    }
  }
}

=== FILE: updates.dfy ===
/** The record updates the handlers are built from: rewriting the players or
    tiles that carry a given id, and the clamped resource update every gain
    and payment goes through. */
module Updates {
  import opened Types

  /** `Math.max(0, v)`: the floor that keeps every resource non-negative. */
  function Clamp(v: int): (r: int)
    ensures r >= 0 && r >= v
    ensures r == v || r == 0
  {
    if v < 0 then 0 else v
  }

  /** `after` is what a clamped update of `before` by `amount` leaves:
      the sum, or zero when the sum would be negative. */
  predicate ClampedSum(before: int, amount: int, after: int)
  {
    after >= 0 && after >= before + amount && (after == before + amount || after == 0)
  }

  /** `updatePlayer`: every player whose id is `id` is replaced by `f` of
      itself and the rest are kept. When ids are indices, as in every game,
      this is the update of the single entry at index `id`, which is why the
      handlers may name a player by id or by turn index alike. */
  function MapPlayers(ps: seq<Player>, id: int, f: Player -> Player): (r: seq<Player>)
    ensures |r| == |ps|
    ensures forall i :: 0 <= i < |ps| ==> r[i] == (if ps[i].id == id then f(ps[i]) else ps[i])
    ensures (forall i :: 0 <= i < |ps| ==> ps[i].id == i) && 0 <= id < |ps| ==> r == ps[id := f(ps[id])]
  {
    seq(|ps|, i requires 0 <= i < |ps| => if ps[i].id == id then f(ps[i]) else ps[i])
  }

  /** The board update of a decision: every tile whose id is `id` is
      replaced by `f` of itself and the rest are kept. On a board whose ids
      are indices this rewrites exactly `b[id]`, the tile the dispatch read. */
  function MapTiles(b: seq<Tile>, id: int, f: Tile -> Tile): (r: seq<Tile>)
    ensures |r| == |b|
    ensures forall i :: 0 <= i < |b| ==> r[i] == (if b[i].id == id then f(b[i]) else b[i])
    ensures (forall i :: 0 <= i < |b| ==> b[i].id == i) && 0 <= id < |b| ==> r == b[id := f(b[id])]
  {
    seq(|b|, i requires 0 <= i < |b| => if b[i].id == id then f(b[i]) else b[i])
  }

  /** One player's resource `kind` moved by `amount`, floored at zero. */
  function Bump(p: Player, kind: ResourceKind, amount: int): Player
  {
    p.(resources := p.resources.With(kind, Clamp(p.resources.Get(kind) + amount)))
  }

  /** The clamped resource update: the players with id `pid` have resource
      `kind` set to the clamped sum; their other resources and fields, and
      every other player, are left as they were. */
  function ModResource(ps: seq<Player>, pid: int, kind: ResourceKind, amount: int): (r: seq<Player>)
    ensures |r| == |ps|
    ensures forall i :: 0 <= i < |ps| && ps[i].id != pid ==> r[i] == ps[i]
    ensures forall i :: 0 <= i < |ps| && ps[i].id == pid ==>
      && r[i] == ps[i].(resources := r[i].resources)
      && ClampedSum(ps[i].resources.Get(kind), amount, r[i].resources.Get(kind))
      && (forall k :: k != kind ==> r[i].resources.Get(k) == ps[i].resources.Get(k))
  {
    MapPlayers(ps, pid, p => Bump(p, kind, amount))
  }

  /** The clamped update applied to a whole game: player `pid`'s resource
      `kind` moves by `amount`, floored at zero; the board, the turn and
      every other field and player stay as they were. */
  function Credit(g: Game, pid: int, kind: ResourceKind, amount: int): (r: Game)
    ensures r.board == g.board && r.currentIdx == g.currentIdx && r.screen == g.screen
    ensures |r.players| == |g.players|
    ensures forall j :: 0 <= j < |g.players| ==>
      r.players[j] == g.players[j].(resources := r.players[j].resources)
    ensures forall j :: 0 <= j < |g.players| && g.players[j].id != pid ==> r.players[j] == g.players[j]
    ensures forall j :: 0 <= j < |g.players| && g.players[j].id == pid ==>
      && ClampedSum(g.players[j].resources.Get(kind), amount, r.players[j].resources.Get(kind))
      && (forall k :: k != kind ==> r.players[j].resources.Get(k) == g.players[j].resources.Get(k))
  {
    g.(players := ModResource(g.players, pid, kind, amount))
  }

  /** Whatever the amount, a clamped update never leaves a negative
      resource behind. */
  lemma ModResourceKeepsNonNegative(ps: seq<Player>, pid: int, kind: ResourceKind, amount: int)
    requires forall i :: 0 <= i < |ps| ==> ps[i].resources.NonNegative()
    ensures forall i :: 0 <= i < |ps| ==> ModResource(ps, pid, kind, amount)[i].resources.NonNegative()
  {
    var r := ModResource(ps, pid, kind, amount);
    forall i | 0 <= i < |ps|
      ensures r[i].resources.NonNegative()
    {
      if ps[i].id == pid {
        forall k: ResourceKind
          ensures r[i].resources.Get(k) >= 0
        {
          if k != kind {
            assert r[i].resources.Get(k) == ps[i].resources.Get(k);
          }
        }
        assert r[i].resources.Get(Gold) >= 0 && r[i].resources.Get(Water) >= 0;
        assert r[i].resources.Get(Energy) >= 0 && r[i].resources.Get(Materials) >= 0;
      }
    }
  }

  /** The oracle's resource delta applied key by key, in the order `kinds`:
      each listed key present in `delta` goes through the clamped update on
      the players with id `pid`. Since every key touches its own field, the
      order does not matter. */
  function ApplyKinds(ps: seq<Player>, pid: int, delta: map<ResourceKind, int>, kinds: seq<ResourceKind>): (r: seq<Player>)
    requires Distinct(kinds)
    ensures |r| == |ps|
    ensures forall i :: 0 <= i < |ps| && ps[i].id != pid ==> r[i] == ps[i]
    ensures forall i :: 0 <= i < |ps| && ps[i].id == pid ==>
      && r[i] == ps[i].(resources := r[i].resources)
      && (forall k :: k in kinds && k in delta ==>
            ClampedSum(ps[i].resources.Get(k), delta[k], r[i].resources.Get(k)))
      && (forall k :: !(k in kinds && k in delta) ==> r[i].resources.Get(k) == ps[i].resources.Get(k))
    decreases |kinds|
  {
    if |kinds| == 0 then ps
    else
      var k := kinds[0];
      var next := if k in delta then ModResource(ps, pid, k, delta[k]) else ps;
      ApplyKinds(next, pid, delta, kinds[1..])
  }

  /** The whole delta applied: every key of `delta` goes through the clamped
      update, every resource it does not mention is kept. */
  function ApplyDelta(ps: seq<Player>, pid: int, delta: map<ResourceKind, int>): (r: seq<Player>)
    ensures |r| == |ps|
    ensures forall i :: 0 <= i < |ps| && ps[i].id != pid ==> r[i] == ps[i]
    ensures forall i :: 0 <= i < |ps| && ps[i].id == pid ==>
      && r[i] == ps[i].(resources := r[i].resources)
      && (forall k :: k in delta ==> ClampedSum(ps[i].resources.Get(k), delta[k], r[i].resources.Get(k)))
      && (forall k :: k !in delta ==> r[i].resources.Get(k) == ps[i].resources.Get(k))
  {
    AllKindsListed();
    ApplyKinds(ps, pid, delta, AllKinds)
  }

  /** A resource record moved key by key through clamped updates is as
      non-negative as the one it started from. */
  lemma DeltaKeepsNonNegative(o: Resources, r: Resources, delta: map<ResourceKind, int>)
    requires o.NonNegative()
    requires forall k :: k in delta ==> ClampedSum(o.Get(k), delta[k], r.Get(k))
    requires forall k :: k !in delta ==> r.Get(k) == o.Get(k)
    ensures r.NonNegative()
  {
    assert r.Get(Gold) >= 0 by { if Gold in delta { assert ClampedSum(o.Get(Gold), delta[Gold], r.Get(Gold)); } }
    assert r.Get(Water) >= 0 by { if Water in delta { assert ClampedSum(o.Get(Water), delta[Water], r.Get(Water)); } }
    assert r.Get(Energy) >= 0 by { if Energy in delta { assert ClampedSum(o.Get(Energy), delta[Energy], r.Get(Energy)); } }
    assert r.Get(Materials) >= 0 by { if Materials in delta { assert ClampedSum(o.Get(Materials), delta[Materials], r.Get(Materials)); } }
  }

  /** Whatever the delta, applying it never leaves a negative resource
      behind. */
  lemma ApplyDeltaKeepsNonNegative(ps: seq<Player>, pid: int, delta: map<ResourceKind, int>)
    requires forall i :: 0 <= i < |ps| ==> ps[i].resources.NonNegative()
    ensures forall i :: 0 <= i < |ps| ==> ApplyDelta(ps, pid, delta)[i].resources.NonNegative()
  {
    var r := ApplyDelta(ps, pid, delta);
    forall i | 0 <= i < |ps|
      ensures r[i].resources.NonNegative()
    {
      if ps[i].id == pid {
        DeltaKeepsNonNegative(ps[i].resources, r[i].resources, delta);
      }
    }
  }
}

=== FILE: validity.dfy ===
/** The invariant a game in progress keeps: the board is the fixed loop of
    `BoardSize` tiles indexed by id, players are indexed by id, resources are
    never negative, city levels stay in 1..3, and each player's property
    list agrees with the owners recorded on the tiles. */
module Validity {
  import opened Types
  import opened Constants
  import opened Updates

  /** Only cities carry a price, rent and a level in 1..3 (1 while unowned),
      only cities are owned, and an owner is one of the players. */
  predicate TileOk(t: Tile, playerCount: int)
  {
    && (t.kind == City ==>
          && t.price.Some? && t.price.value > 0
          && t.rent.Some? && t.rent.value > 0
          && t.level.Some? && 1 <= t.level.value <= 3
          && (t.ownerId == None ==> t.level == Some(1)))
    && (t.kind != City ==> t.ownerId == None)
    && (t.ownerId.Some? ==> 0 <= t.ownerId.value < playerCount)
  }

  /** A player stands on the board, holds no negative resource, has at most
      two turns left in jail, and lists each owned tile once. */
  predicate PlayerOk(p: Player)
  {
    && 0 <= p.position < BoardSize
    && p.resources.NonNegative()
    && 0 <= p.jailTurns <= 2
    && (forall t :: t in p.properties ==> 0 <= t < BoardSize)
    && Distinct(p.properties)
  }

  /** `t` is in player `i`'s property list exactly when tile `t` records
      `i` as its owner. */
  predicate OwnershipAgrees(board: seq<Tile>, players: seq<Player>)
  {
    forall i, t :: 0 <= i < |players| && 0 <= t < |board| ==>
      (t in players[i].properties <==> board[t].ownerId == Some(i))
  }

  predicate Valid(g: Game)
  {
    && |g.board| == BoardSize
    && 0 <= g.currentIdx < |g.players|
    && (forall i :: 0 <= i < |g.board| ==> g.board[i].id == i && TileOk(g.board[i], |g.players|))
    && (forall i :: 0 <= i < |g.players| ==> g.players[i].id == i && PlayerOk(g.players[i]))
    && OwnershipAgrees(g.board, g.players)
  }

  /** Replacing the players by ones with the same ids and property lists
      that are each in order keeps a valid game valid. */
  lemma PlayersReplacedValid(g: Game, ps: seq<Player>)
    requires Valid(g)
    requires |ps| == |g.players|
    requires forall j :: 0 <= j < |ps| ==>
      ps[j].id == g.players[j].id && ps[j].properties == g.players[j].properties && PlayerOk(ps[j])
    ensures Valid(g.(players := ps))
  {
  }

  /** Replacing only the players' resources, by non-negative ones, keeps a
      valid game valid. */
  lemma ResourcesReplacedValid(g: Game, ps: seq<Player>)
    requires Valid(g)
    requires |ps| == |g.players|
    requires forall j :: 0 <= j < |ps| ==> ps[j] == g.players[j].(resources := ps[j].resources)
    requires forall j :: 0 <= j < |ps| ==> ps[j].resources.NonNegative()
    ensures Valid(g.(players := ps))
  {
    PlayersReplacedValid(g, ps);
  }

  /** A clamped resource update keeps a valid game valid. */
  lemma CreditValid(g: Game, pid: int, kind: ResourceKind, amount: int)
    requires Valid(g)
    ensures Valid(Credit(g, pid, kind, amount))
  {
    ModResourceKeepsNonNegative(g.players, pid, kind, amount);
    ResourcesReplacedValid(g, Credit(g, pid, kind, amount).players);
  }

  /** Applying an oracle delta keeps a valid game valid. */
  lemma ApplyDeltaValid(g: Game, pid: int, delta: map<ResourceKind, int>)
    requires Valid(g)
    ensures Valid(g.(players := ApplyDelta(g.players, pid, delta)))
  {
    ApplyDeltaKeepsNonNegative(g.players, pid, delta);
    ResourcesReplacedValid(g, ApplyDelta(g.players, pid, delta));
  }

  /** The starting board satisfies the tile invariant for any number of
      players: no tile is owned yet and every city sits at level 1. */
  lemma InitialBoardOk(playerCount: int)
    ensures |InitialBoard| == BoardSize
    ensures forall i :: 0 <= i < |InitialBoard| ==>
      InitialBoard[i].id == i && TileOk(InitialBoard[i], playerCount)
  {
    InitialBoardShape();
  }

  /** A game on the starting board whose players own nothing, are indexed
      by id and are each in order, is valid. */
  lemma FreshGameValid(ps: seq<Player>, screen: Screen)
    requires |ps| >= 1
    requires forall j :: 0 <= j < |ps| ==> ps[j].id == j && ps[j].properties == [] && PlayerOk(ps[j])
    ensures Valid(Game(InitialBoard, ps, 0, screen))
  {
    InitialBoardOk(|ps|);
    InitialBoardShape();
  }
}
